=== FILE: README.md ===
# OpenAI fine-tuning cost calculator — Dafny model

A model of the two computations behind the fine-tuning calculator:

- the **cost calculator page**: the static catalog of four models with their
  per-million-token rates (input, cached input, output, training), the cost
  effect that turns token counts, epochs and the cached-input / Batch API
  switches into a training cost, two inference costs and a total, the loading
  of that state from URL query parameters, and the parameters a share link
  carries;
- the **`POST /api/count-tokens` endpoint**: the empty-text check, the offline
  word-count heuristic `ceil(1.3 × words)` used when no API key is configured,
  and the result and error mapping around the delegated chat-completions call.

Prices are `real`, so every identity about costs is exact. Tokens and epochs
are unbounded integers; the JavaScript numbers that URL parsing can produce
are integers or NaN (`JsNumbers.Num`). Whitespace is the exact ECMAScript
WhiteSpace + LineTerminator set, which is what both `\s` and `trim` use.

Modules: `Optional` (absent values, JavaScript truthiness of strings), `Text`
(trim, split on whitespace runs), `JsNumbers` (`toString` and `parseInt`),
`Pricing` (catalog, cost computation), `Calculator` (page state, URL loading,
share parameters), `CountTokens` (the endpoint handler).

The handler `CountTokens.Post` takes the parsed request body, the API key
setting and the outcome the upstream call would have, and returns the
upstream request it would send (if any) with its HTTP response; so "no
upstream call" is stated as `sent == None`.

Two behaviours of the code worth stating:

- Non-empty text made only of whitespace is not refused: it passes the
  `!text` check and, when no API key is configured, trims to the empty
  string, splits into one empty piece and is estimated at 2 tokens
  (`CountTokens.WhitespaceOnlyEstimatesTwo`). With a key it is sent upstream
  as it is, and the count is whatever comes back.
- The cost computation does not validate its inputs: there is no unknown-model
  or invalid-parameter error. Negative counts loaded from a URL are priced as
  they are. Only the corrected URL guard (`Calculator.LoadParams`) keeps the
  model selection inside the catalog; the guard as written also accepts
  inherited property names (see Findings).

## Model

| member | source | states |
|---|---|---|
| `Pricing.CatalogWellFormed` | app/page.tsx:24-57 | the catalog has four models, each with non-negative rates and a cached-input rate no higher than its input rate |
| `Pricing.Costs` | app/page.tsx:94-116 | the total is exactly the training cost plus the two final inference costs |
| `Pricing.BatchApiHalvesInference` | app/page.tsx:107-109 | with the Batch API on, each inference cost is exactly half its value with it off, and training cost is unchanged |
| `Pricing.CachedInputNeverCostsMore` | app/page.tsx:102-103 | the cached flag changes only the input rate: output and training costs are equal, and for well-formed rates and non-negative input tokens the input cost never rises |
| `Pricing.CatalogCachedInputNeverCostsMore` | app/page.tsx:24-57 | for every catalog model and a non-negative input token count, turning on cached input never raises the inference input cost |
| `Pricing.TrainingLinearInEpochs` | app/page.tsx:98 | training cost for k epochs is k times the training cost for one epoch |
| `Pricing.TrainingIgnoresInference` | app/page.tsx:98 | training cost does not depend on output tokens, the cached flag or the batch flag |
| `Pricing.NoTokensCostNothing` | app/page.tsx:98-115 | zero input and output tokens give zero for every cost and the total, for any model, epochs and flags |
| `Pricing.CostsNonNegative` | app/page.tsx:98-115 | non-negative rates, tokens and epochs give non-negative costs and total |
| `Pricing.Gpt4oExample` | app/page.tsx:94-116 | gpt-4o, 100000 input, 20000 output tokens, 3 epochs costs 7.5 + 0.375 + 0.3 = 8.175, and 7.5 + 0.1875 + 0.15 = 7.8375 with the Batch API |
| `Calculator.ApplyParams` | app/page.tsx:73-91 | each field is overwritten only by its own present, non-empty parameter (numbers through `parseInt`, flags true exactly for "true", the model only when the lookup accepts it) and is left alone otherwise, including a model the lookup rejects; an empty parameter set changes nothing |
| `Calculator.LoadParamsAsWritten` | app/page.tsx:83 | the guard as written lets the model become a catalog entry or an inherited object property name |
| `Calculator.AsWrittenLoadSelectsInheritedKey` | app/page.tsx:83 | from the initial (valid) state, `?model=constructor` selects a model the catalog does not hold |
| `Calculator.LoadParams` | app/page.tsx:73-91 | loading keeps the selected model a catalog entry, and a changed model is the one the `model` parameter names |
| `Calculator.LoadParamsRejectsInheritedKey` | app/page.tsx:83 | an inherited property name in `model` leaves the selection unchanged |
| `Calculator.LoadParamsModel` | app/page.tsx:83 | the selected model becomes the `model` parameter exactly when that is a catalog key, and stays as it was otherwise |
| `Calculator.ShareParams` | app/page.tsx:133-139 | a share link sets exactly the seven parameters model, input, output, epochs, cached, batch and tab |
| `Calculator.ShareLinkRoundTrip` | app/page.tsx:133-139 | loading the share parameters of a state with a catalog model and a non-empty tab restores that state exactly, whatever state the page held before, with the guard as written and with the corrected one |
| `Calculator.ApplyShareParams` | app/page.tsx:73-91 | for either guard, loading the share parameters of a state whose model that guard accepts and whose tab is non-empty restores the state exactly |
| `Calculator.StateCosts` | app/page.tsx:94-116 | a state has a cost breakdown exactly when its model is a catalog entry and its three counts are numbers, and its total is the sum of the three costs |
| `Calculator.AsWrittenInheritedKeyHasNoCosts` | app/page.tsx:83-116 | after `?model=constructor` passes the as-written guard the counts are still numbers, yet the state has no cost breakdown (the page shows NaN) |
| `Calculator.ShareLinkKeepsCosts` | app/page.tsx:94-139 | opening a share link of a state with a catalog model and a non-empty tab shows the same costs as that state |
| `Calculator.InitialCosts` | app/page.tsx:60-65 | the initial state (gpt-4o-mini, 100000 / 20000 tokens, 3 epochs) costs 0.9 + 0.03 + 0.024 = 0.954 |
| `JsNumbers.NumToString` | app/page.tsx:134-136 | `toString` writes "NaN" exactly for NaN, and an integer as a non-empty string that starts with `-` exactly when it is negative; its digits are characterised by `JsNumbers.DecimalDigits` and `JsNumbers.DecimalDigitsValue` |
| `JsNumbers.ParseInt` | app/page.tsx:84-86 | `Number.parseInt` with no radix; it has no contract of its own and is characterised by `JsNumbers.ParseIntOfToString`, `JsNumbers.ParseIntWithoutDigits` and `JsNumbers.ParseIntHexadecimal` |
| `JsNumbers.DecimalDigits` | app/page.tsx:134-136 | an integer is written as at least one decimal digit with no leading zero |
| `JsNumbers.DecimalDigitsValue` | app/page.tsx:134-136 | the decimal digits written for n have value n |
| `JsNumbers.ParseIntOfToString` | app/page.tsx:84-86 | `parseInt` reads back any integer `toString` wrote, also when a suffix that cannot continue the number follows it, and reads "NaN" alone as NaN |
| `JsNumbers.ParseIntInvertsToString` | app/page.tsx:84-86 | `parseInt(x.toString()) == x` for every integer x and for NaN |
| `JsNumbers.ParseIntWithoutDigits` | app/page.tsx:84-86 | text that is all whitespace, or whose first character after the leading whitespace is not a sign or a digit, loads as NaN |
| `JsNumbers.ParseIntHexadecimal` | app/page.tsx:84-86 | after an optional sign, `0x` or `0X` followed by hexadecimal digits and then a character that is not one reads as the digits' value in radix 16, negated after `-` |
| `Text.Trim` | app/api/count-tokens/route.ts:17 | the result is a contiguous stretch of the text with only whitespace before and after it; it has no whitespace at either end, and is empty exactly when the text is all whitespace |
| `Text.TrimStart` | app/api/count-tokens/route.ts:17 | the result is the longest suffix not starting with whitespace; everything dropped is whitespace |
| `Text.TrimEnd` | app/api/count-tokens/route.ts:17 | the result is the longest prefix not ending with whitespace; everything dropped is whitespace |
| `Text.TrimKeepsNonWhitespace` | app/api/count-tokens/route.ts:17 | trimming removes whitespace only |
| `Text.Split` | app/api/count-tokens/route.ts:17 | splitting on whitespace runs always yields at least one piece |
| `Text.SplitPiecesHaveNoWhitespace` | app/api/count-tokens/route.ts:17 | no piece of a split holds whitespace |
| `Text.SplitLength` | app/api/count-tokens/route.ts:17 | the number of pieces is one more than the number of maximal whitespace runs |
| `Text.SplitContents` | app/api/count-tokens/route.ts:17 | the pieces put together are exactly the non-whitespace characters, in order |
| `Text.SplitTrimmedIntoWords` | app/api/count-tokens/route.ts:17 | non-empty text with no whitespace at either end splits into non-empty pieces only |
| `Text.SplitWhitespaceFree` | app/api/count-tokens/route.ts:17 | text without whitespace splits into itself alone |
| `CountTokens.WordCount` | app/api/count-tokens/route.ts:17 | the heuristic word count is at least 1 |
| `CountTokens.WordCountCountsWords` | app/api/count-tokens/route.ts:17 | for text with a non-whitespace character the counted pieces are its words: non-empty, whitespace-free, holding all its non-whitespace characters, one more than the whitespace runs of the trimmed text |
| `CountTokens.EstimateTokens` | app/api/count-tokens/route.ts:18 | the estimate is the least integer at or above 1.3 times the word count |
| `CountTokens.EstimateBounds` | app/api/count-tokens/route.ts:17-18 | for at least one word the estimate is at least the word count and at least 2 |
| `CountTokens.EstimateMonotone` | app/api/count-tokens/route.ts:18 | more words never give a smaller estimate |
| `CountTokens.HeuristicTenWords` | app/api/count-tokens/route.ts:17-18 | ten words are estimated at 13 tokens with the estimate note |
| `CountTokens.ErrorResponse` | app/api/count-tokens/route.ts:49-51 | an error response has status 500; its message is the thrown one when that is non-empty and "Failed to count tokens" otherwise |
| `CountTokens.Post` | app/api/count-tokens/route.ts:6-53 | an upstream request is sent exactly when text is present and a key is configured; status 400 exactly for missing or empty text; status 200 exactly for a count; only 200, 400 and 500 occur; the heuristic count carries the note and the delegated count does not; an unparseable body gives 500 with the parse error's message (or the generic one) and no upstream call |
| `CountTokens.NoTextRejected` | app/api/count-tokens/route.ts:10-11 | missing or empty text gives 400 "No text provided" with no upstream call, whatever the key and upstream |
| `CountTokens.HeuristicEstimate` | app/api/count-tokens/route.ts:14-24 | without a key the response is 200 with `ceil(1.3 × words)` and the estimate note, and depends neither on the model nor on the upstream |
| `CountTokens.WhitespaceOnlyEstimatesTwo` | app/api/count-tokens/route.ts:10-18 | non-empty whitespace-only text without a key gives 200 with 2 tokens |
| `CountTokens.DelegatedRequest` | app/api/count-tokens/route.ts:27-38 | with a key one request is sent: bearer key, the requested model or gpt-4o, the whole text as content, a one-token limit |
| `CountTokens.DelegatedSuccess` | app/api/count-tokens/route.ts:45-48 | a successful upstream call returns 200 with exactly its prompt token count and no note |
| `CountTokens.DelegatedFailure` | app/api/count-tokens/route.ts:40-51 | a failed upstream call returns 500 with the upstream message when non-empty, else "Failed to count tokens" |

## Findings

| source | as written | input that shows it | evidently intended | confidence | as-written member | corrected member |
|---|---|---|---|---|---|---|
| app/page.tsx:83 | `models[model]` is truthy for the property names every object inherits, so the guard accepts them as models; the cost effect then reads undefined rates and shows NaN | the query string `?model=constructor` (also `__proto__`, `toString`, `valueOf`, …) | only the catalog's own keys select a model | not executed; high | `Calculator.LoadParamsAsWritten` with `Calculator.AsWrittenLoadSelectsInheritedKey` and `Calculator.AsWrittenInheritedKeyHasNoCosts` | `Calculator.LoadParams` with `Calculator.LoadParamsRejectsInheritedKey` |

## Left out

- Rendering, tabs, sliders, select widgets, toasts and clipboard writes (app/page.tsx:145-469): user interface only. The form inputs' own `parseInt(...) || 0` fallbacks belong to it.
- `formatCurrency` (app/page.tsx:119-126): locale formatting by `Intl`, which is not part of this model.
- `window.location`, the router and the `searchParams` null check (app/page.tsx:74): the query string is a map from name to value. Percent-encoding is assumed to be inverted exactly. A repeated name is not modelled, where `get` returns the first value.
- The `fetch` call, JSON parsing of bodies, `process.env` and `console.error` (app/api/count-tokens/route.ts:4, 8, 27-45, 50). They become inputs: the parsed body or its parse error, the key setting, and the upstream outcome.
- Non-string JSON values for `text` or `model` are not modelled. Without a key, a non-string `text` makes `trim` throw and the handler answers 500; with a key it is sent upstream as it is.
- An ok upstream response whose `usage` object lacks `prompt_tokens` is not modelled. The handler would answer 200 with no `tokenCount`. A missing `usage` object throws, and that case is modelled as a thrown outcome.
- IEEE-754 doubles. Costs are exact rationals. Integers are unbounded, so `toString` never switches to exponent notation (at 10^21 and above) and `parseInt` never loses precision. Negative zero is not modelled.
- StateCosts: when one count is NaN, the source still computes the cost fields that do not use that count and shows NaN elsewhere. The model returns no breakdown at all in that case. For a model outside the catalog every figure is NaN in the source, which `None` states exactly.
- The display metadata (`name`, `description`) is kept in the catalog. Nothing is proved about it.

=== FILE: calculator.dfy ===
/** The calculator page's state, restored from URL query parameters on load
    and written back into a share link. The query string is modelled as the
    map from parameter name to value that `URLSearchParams` presents;
    percent-encoding is taken to be inverted exactly by the browser. */
module Calculator {
  import opened Optional
  import opened JsNumbers
  import opened Pricing

  datatype CalculatorState = CalculatorState(
    selectedModel: string,
    inputTokens: Num,
    outputTokens: Num,
    epochs: Num,
    useCachedInput: bool,
    batchApi: bool,
    activeTab: string)

  type Params = map<string, string>

  const InitialState: CalculatorState :=
    CalculatorState("gpt-4o-mini", Int(100000), Int(20000), Int(3), false, false, "calculator")

  /** The selected model is a catalog entry, so the cost computation can look it up. */
  predicate ValidState(s: CalculatorState)
  {
    s.selectedModel in Catalog
  }

  /** `searchParams.get(key)`. */
  function Get(p: Params, key: string): Option<string>
  {
    if key in p then Some(p[key]) else None
  }

  /** Property names every plain JavaScript object inherits from
      `Object.prototype`; indexing the catalog object with one of them yields
      a truthy value although it names no model. */
  const InheritedKeys: set<string> := {
    "constructor", "__proto__", "hasOwnProperty", "isPrototypeOf",
    "propertyIsEnumerable", "toString", "toLocaleString", "valueOf",
    "__defineGetter__", "__defineSetter__", "__lookupGetter__", "__lookupSetter__"
  }

  /** How the `model` parameter is checked against the catalog. */
  datatype ModelLookup =
    | OwnKeys        // only the catalog's own entries
    | PrototypeChain // `models[model]` truthy: own entries and inherited properties

  predicate Accepts(lookup: ModelLookup, key: string)
  {
    match lookup
    case OwnKeys => key in Catalog
    case PrototypeChain => key in Catalog || key in InheritedKeys
  }

  /** A numeric parameter: `parseInt` of the value when it is present and
      non-empty, the current value otherwise. */
  function NumParam(current: Num, v: Option<string>): Num
  {
    if Truthy(v) then ParseInt(v.value) else current
  }

  /** A boolean parameter: `true` exactly for the value `"true"`. */
  function BoolParam(current: bool, v: Option<string>): bool
  {
    if Truthy(v) then v.value == "true" else current
  }

  function TextParam(current: string, v: Option<string>): string
  {
    if Truthy(v) then v.value else current
  }

  /** The URL-loading effect: each parameter that is present and non-empty
      overwrites its field; numbers go through `parseInt`, booleans compare
      against `"true"`, and the model is taken only when `lookup` accepts it. */
  function ApplyParams(s: CalculatorState, p: Params, lookup: ModelLookup): (r: CalculatorState)
    ensures r.selectedModel == s.selectedModel || Accepts(lookup, r.selectedModel)
    ensures Truthy(Get(p, "model")) && Accepts(lookup, p["model"]) ==> r.selectedModel == p["model"]
    ensures Truthy(Get(p, "model")) && !Accepts(lookup, p["model"]) ==> r.selectedModel == s.selectedModel
    ensures !Truthy(Get(p, "model")) ==> r.selectedModel == s.selectedModel
    ensures Truthy(Get(p, "input")) ==> r.inputTokens == ParseInt(p["input"])
    ensures !Truthy(Get(p, "input")) ==> r.inputTokens == s.inputTokens
    ensures Truthy(Get(p, "output")) ==> r.outputTokens == ParseInt(p["output"])
    ensures !Truthy(Get(p, "output")) ==> r.outputTokens == s.outputTokens
    ensures Truthy(Get(p, "epochs")) ==> r.epochs == ParseInt(p["epochs"])
    ensures !Truthy(Get(p, "epochs")) ==> r.epochs == s.epochs
    ensures Truthy(Get(p, "cached")) ==> (r.useCachedInput <==> p["cached"] == "true")
    ensures !Truthy(Get(p, "cached")) ==> r.useCachedInput == s.useCachedInput
    ensures Truthy(Get(p, "batch")) ==> (r.batchApi <==> p["batch"] == "true")
    ensures !Truthy(Get(p, "batch")) ==> r.batchApi == s.batchApi
    ensures Truthy(Get(p, "tab")) ==> r.activeTab == p["tab"]
    ensures !Truthy(Get(p, "tab")) ==> r.activeTab == s.activeTab
    ensures p == map[] ==> r == s
  {
    var model := Get(p, "model");
    CalculatorState(
      if Truthy(model) && Accepts(lookup, model.value) then model.value else s.selectedModel,
      NumParam(s.inputTokens, Get(p, "input")),
      NumParam(s.outputTokens, Get(p, "output")),
      NumParam(s.epochs, Get(p, "epochs")),
      BoolParam(s.useCachedInput, Get(p, "cached")),
      BoolParam(s.batchApi, Get(p, "batch")),
      TextParam(s.activeTab, Get(p, "tab")))
  }

  /** URL loading with the catalog check as written: an inherited property
      name passes it. */
  function LoadParamsAsWritten(s: CalculatorState, p: Params): (r: CalculatorState)
    ensures r.selectedModel == s.selectedModel || r.selectedModel in Catalog || r.selectedModel in InheritedKeys
  {
    ApplyParams(s, p, PrototypeChain)
  }

  /** URL loading with the catalog check as intended: only catalog entries
      are selected, so a valid state stays valid. */
  function LoadParams(s: CalculatorState, p: Params): (r: CalculatorState)
    ensures ValidState(s) ==> ValidState(r)
    ensures r.selectedModel != s.selectedModel ==> Get(p, "model") == Some(r.selectedModel)
  {
    ApplyParams(s, p, OwnKeys)
  }

  /** The as-written check selects `"constructor"`, which is no model: the
      page then prices a state whose model the catalog does not hold. */
  lemma AsWrittenLoadSelectsInheritedKey()
    ensures ValidState(InitialState)
    ensures !ValidState(LoadParamsAsWritten(InitialState, map["model" := "constructor"]))
  {
  }

  /** The intended check leaves the selection alone for that same link. */
  lemma LoadParamsRejectsInheritedKey(s: CalculatorState, key: string)
    requires key in InheritedKeys
    ensures LoadParams(s, map["model" := key]).selectedModel == s.selectedModel
  {
  }

  /** The model changes exactly when the parameter names a catalog entry. */
  lemma LoadParamsModel(s: CalculatorState, p: Params)
    ensures LoadParams(s, p).selectedModel
            == (if "model" in p && p["model"] in Catalog then p["model"] else s.selectedModel)
  {
  }

  /** Every name either guard accepts is non-empty, so it survives the
      skip of empty parameters. */
  lemma AcceptedNameNonEmpty(lookup: ModelLookup, key: string)
    requires Accepts(lookup, key)
    ensures key != ""
  {
    assert "" !in Catalog;
    assert "" !in InheritedKeys;
  }

  function BoolToString(b: bool): string
  {
    if b then "true" else "false"
  }

  /** The query parameters `generateShareLink` sets. */
  function ShareParams(s: CalculatorState): (p: Params)
    ensures p.Keys == {"model", "input", "output", "epochs", "cached", "batch", "tab"}
  {
    map[
      "model" := s.selectedModel,
      "input" := NumToString(s.inputTokens),
      "output" := NumToString(s.outputTokens),
      "epochs" := NumToString(s.epochs),
      "cached" := BoolToString(s.useCachedInput),
      "batch" := BoolToString(s.batchApi),
      "tab" := s.activeTab
    ]
  }

  lemma NumParamRoundTrip(current: Num, x: Num)
    ensures NumParam(current, Some(NumToString(x))) == x
  {
    ParseIntInvertsToString(x);
  }

  lemma BoolParamRoundTrip(current: bool, b: bool)
    ensures BoolParam(current, Some(BoolToString(b))) == b
  {
  }

  /** Opening a share link restores the state it was made from, whatever the
      page held before, provided the model is a catalog entry and the tab
      name is not empty (an empty parameter is skipped on load). This holds
      for the guard as written and for the corrected one. */
  lemma ShareLinkRoundTrip(before: CalculatorState, s: CalculatorState)
    requires ValidState(s) && s.activeTab != ""
    ensures LoadParams(before, ShareParams(s)) == s
    ensures LoadParamsAsWritten(before, ShareParams(s)) == s
  {
    ApplyShareParams(before, s, OwnKeys);
    ApplyShareParams(before, s, PrototypeChain);
  }

  lemma ApplyShareParams(before: CalculatorState, s: CalculatorState, lookup: ModelLookup)
    requires Accepts(lookup, s.selectedModel) && s.activeTab != ""
    ensures ApplyParams(before, ShareParams(s), lookup) == s
  {
    var p := ShareParams(s);
    var r := ApplyParams(before, p, lookup);
    ShareParamsValues(s);
    AcceptedNameNonEmpty(lookup, s.selectedModel);
    assert r.selectedModel == s.selectedModel;
    assert r.inputTokens == s.inputTokens by {
      NumParamRoundTrip(before.inputTokens, s.inputTokens);
    }
    assert r.outputTokens == s.outputTokens by {
      NumParamRoundTrip(before.outputTokens, s.outputTokens);
    }
    assert r.epochs == s.epochs by {
      NumParamRoundTrip(before.epochs, s.epochs);
    }
    assert r.useCachedInput == s.useCachedInput by {
      BoolParamRoundTrip(before.useCachedInput, s.useCachedInput);
    }
    assert r.batchApi == s.batchApi by {
      BoolParamRoundTrip(before.batchApi, s.batchApi);
    }
  }

  /** What `searchParams.get` returns for each parameter of a share link. */
  lemma ShareParamsValues(s: CalculatorState)
    ensures Get(ShareParams(s), "model") == Some(s.selectedModel)
    ensures Get(ShareParams(s), "input") == Some(NumToString(s.inputTokens))
    ensures Get(ShareParams(s), "output") == Some(NumToString(s.outputTokens))
    ensures Get(ShareParams(s), "epochs") == Some(NumToString(s.epochs))
    ensures Get(ShareParams(s), "cached") == Some(BoolToString(s.useCachedInput))
    ensures Get(ShareParams(s), "batch") == Some(BoolToString(s.batchApi))
    ensures Get(ShareParams(s), "tab") == Some(s.activeTab)
  {
  }

  /** The costs the page shows for a state; `None` when a figure would be
      NaN: a count is NaN, or the selected model is not a catalog entry (the
      as-written guard admits inherited property names, whose rates are
      `undefined`). */
  function StateCosts(s: CalculatorState): (c: Option<CostBreakdown>)
    ensures c.Some? <==> ValidState(s) && s.inputTokens.Int? && s.outputTokens.Int? && s.epochs.Int?
    ensures c.Some? ==> c.value.total == c.value.training + c.value.inferenceInput + c.value.inferenceOutput
  {
    if ValidState(s) && s.inputTokens.Int? && s.outputTokens.Int? && s.epochs.Int? then
      Some(Costs(Catalog[s.selectedModel],
                 Usage(s.inputTokens.value, s.outputTokens.value, s.epochs.value, s.useCachedInput, s.batchApi)))
    else None
  }

  /** The as-written guard's `?model=constructor` leaves every count a number,
      yet the page has nothing to price: its figures are NaN. */
  lemma AsWrittenInheritedKeyHasNoCosts()
    ensures var r := LoadParamsAsWritten(InitialState, map["model" := "constructor"]);
            r.inputTokens.Int? && r.outputTokens.Int? && r.epochs.Int? && StateCosts(r) == None
  {
    AsWrittenLoadSelectsInheritedKey();
  }

  /** Opening a share link shows the same costs the sharer saw. */
  lemma ShareLinkKeepsCosts(before: CalculatorState, s: CalculatorState)
    requires ValidState(s) && s.activeTab != ""
    ensures StateCosts(LoadParamsAsWritten(before, ShareParams(s))) == StateCosts(s)
  {
    ShareLinkRoundTrip(before, s);
  }

  /** The initial page prices gpt-4o-mini for 100000 input and 20000 output
      tokens over 3 epochs. */
  lemma InitialCosts()
    ensures StateCosts(InitialState) == Some(CostBreakdown(0.9, 0.03, 0.024, 0.954))
  {
  }
}

=== FILE: count_tokens.dfy ===
/** The `POST /api/count-tokens` handler. The upstream chat-completions call
    is not performed here: the handler is given the API key setting and the
    outcome the upstream call would have, and returns the request it would
    send (if any) together with its HTTP response. */
module CountTokens {
  import opened Optional
  import opened Text

  /** The parsed JSON request body, or the message of the parse error. */
  datatype RequestBody =
    | Json(text: Option<string>, model: Option<string>)
    | Malformed(message: string)

  /** The chat-completions request the delegated branch sends. */
  datatype UpstreamRequest = UpstreamRequest(
    authorization: string,
    model: string,
    content: string,
    maxTokens: nat)

  /** What the upstream call comes back with: a successful response's
      `usage.prompt_tokens`, a non-ok response with its optional
      `error.message`, or an exception (network failure, unreadable body)
      with its message. */
  datatype UpstreamOutcome =
    | PromptTokens(count: int)
    | Rejected(errorMessage: Option<string>)
    | Threw(message: string)

  datatype ResponseBody =
    | TokenCount(tokenCount: int, note: Option<string>)
    | Error(message: string)

  datatype Response = Response(status: int, body: ResponseBody)

  /** The upstream request sent, if any, and the response returned. */
  datatype Exchange = Exchange(sent: Option<UpstreamRequest>, response: Response)

  const NoTextMessage: string := "No text provided"
  const FailureMessage: string := "Failed to count tokens"
  const EstimateNote: string := "This is an estimated count. For accurate counts, configure an OpenAI API key."
  const DefaultModel: string := "gpt-4o"

  /** `text.trim().split(/\s+/).length`. */
  function WordCount(text: string): (w: nat)
    ensures w >= 1
  {
    |Split(Trim(text))|
  }

  /** `Math.ceil(words * 1.3)`, with 1.3 taken as exactly 13/10. */
  function EstimateTokens(words: nat): (t: nat)
    ensures (t as real) >= 1.3 * (words as real)
    ensures ((t - 1) as real) < 1.3 * (words as real)
  {
    (13 * words + 9) / 10
  }

  function UpstreamRequestFor(apiKey: string, text: string, model: Option<string>): UpstreamRequest
  {
    UpstreamRequest("Bearer " + apiKey, if Truthy(model) then model.value else DefaultModel, text, 1)
  }

  /** The catch block: status 500 with the error's message, or the generic
      message when that is empty. */
  function ErrorResponse(message: string): (r: Response)
    ensures r.status == 500 && r.body.Error? && r.body.message != ""
    ensures message != "" ==> r.body.message == message
    ensures message == "" ==> r.body.message == FailureMessage
  {
    Response(500, Error(if message != "" then message else FailureMessage))
  }

  function Post(body: RequestBody, apiKey: Option<string>, upstream: UpstreamOutcome): (x: Exchange)
    ensures x.sent.Some? <==> body.Json? && Truthy(body.text) && Truthy(apiKey)
    ensures x.response.status == 400 <==> body.Json? && !Truthy(body.text)
    ensures x.response.status == 200 <==> x.response.body.TokenCount?
    ensures x.response.status == 200 || x.response.status == 400 || x.response.status == 500
    ensures x.response.body.TokenCount? && x.sent.None? ==> x.response.body.note == Some(EstimateNote)
    ensures x.response.body.TokenCount? && x.sent.Some? ==> x.response.body.note == None
    ensures body.Malformed? ==> x == Exchange(None, ErrorResponse(body.message))
  {
    match body
    case Malformed(message) => Exchange(None, ErrorResponse(message))
    case Json(text, model) =>
      if !Truthy(text) then
        Exchange(None, Response(400, Error(NoTextMessage)))
      else if !Truthy(apiKey) then
        var estimate := EstimateTokens(WordCount(text.value));
        Exchange(None, Response(200, TokenCount(estimate, Some(EstimateNote))))
      else
        var request := UpstreamRequestFor(apiKey.value, text.value, model);
        var response :=
          match upstream
          case PromptTokens(n) => Response(200, TokenCount(n, None))
          case Rejected(m) => ErrorResponse(if Truthy(m) then m.value else FailureMessage)
          case Threw(m) => ErrorResponse(m);
        Exchange(Some(request), response)
  }

  /** A missing or empty `text` is refused with 400 before the key is looked
      at and without any upstream call. */
  lemma NoTextRejected(text: Option<string>, model: Option<string>, apiKey: Option<string>, upstream: UpstreamOutcome)
    requires !Truthy(text)
    ensures Post(Json(text, model), apiKey, upstream) == Exchange(None, Response(400, Error(NoTextMessage)))
  {
  }

  /** Without a key the count is `ceil(1.3 * w)` for the `w` pieces of the
      trimmed text, carries the estimate note, and depends neither on the
      model nor on any upstream outcome. */
  lemma HeuristicEstimate(text: string, m1: Option<string>, m2: Option<string>, apiKey: Option<string>,
                          u1: UpstreamOutcome, u2: UpstreamOutcome)
    requires text != "" && !Truthy(apiKey)
    ensures Post(Json(Some(text), m1), apiKey, u1) == Post(Json(Some(text), m2), apiKey, u2)
    ensures Post(Json(Some(text), m1), apiKey, u1)
            == Exchange(None, Response(200, TokenCount(EstimateTokens(WordCount(text)), Some(EstimateNote))))
  {
  }

  /** The estimate is at least the word count and at least 2. */
  lemma EstimateBounds(words: nat)
    requires words >= 1
    ensures EstimateTokens(words) >= words && EstimateTokens(words) >= 2
  {
  }

  lemma EstimateMonotone(w1: nat, w2: nat)
    requires w1 <= w2
    ensures EstimateTokens(w1) <= EstimateTokens(w2)
  {
  }

  /** Text of ten words (nine whitespace runs once trimmed) is estimated at
      thirteen tokens when no key is configured. */
  lemma HeuristicTenWords(text: string, model: Option<string>, apiKey: Option<string>, upstream: UpstreamOutcome)
    requires !AllWhitespace(text) && WhitespaceRuns(Trim(text)) == 9 && !Truthy(apiKey)
    ensures Post(Json(Some(text), model), apiKey, upstream).response
            == Response(200, TokenCount(13, Some(EstimateNote)))
  {
    assert WordCount(text) == 10 by {
      WordCountCountsWords(text);
    }
    HeuristicEstimate(text, model, model, apiKey, upstream, upstream);
  }

  /** For text with a non-whitespace character, the pieces the heuristic
      counts are its words: non-empty, whitespace-free, together holding every
      non-whitespace character in order, one more than the whitespace runs
      between them. */
  lemma WordCountCountsWords(text: string)
    requires !AllWhitespace(text)
    ensures var words := Split(Trim(text));
            && (forall i :: 0 <= i < |words| ==> words[i] != [] && NoWhitespace(words[i]))
            && Flatten(words) == RemoveWhitespace(text)
            && WordCount(text) == 1 + WhitespaceRuns(Trim(text))
  {
    SplitTrimmedIntoWords(Trim(text));
    SplitPiecesHaveNoWhitespace(Trim(text));
    SplitContents(Trim(text));
    TrimKeepsNonWhitespace(text);
    SplitLength(Trim(text));
  }

  /** Non-empty text made only of whitespace passes the empty-text check and
      is estimated at 2 tokens: trimming leaves the empty string, which splits
      into one piece. */
  lemma WhitespaceOnlyEstimatesTwo(text: string, model: Option<string>, apiKey: Option<string>, upstream: UpstreamOutcome)
    requires text != "" && AllWhitespace(text) && !Truthy(apiKey)
    ensures Post(Json(Some(text), model), apiKey, upstream)
            == Exchange(None, Response(200, TokenCount(2, Some(EstimateNote))))
  {
    assert Trim(text) == [];
    assert Split([]) == [[]];
  }

  /** With a key, exactly one upstream request goes out: the whole text as the
      single user message, the requested model or `gpt-4o` when none is given,
      and a one-token completion limit. */
  lemma DelegatedRequest(text: string, model: Option<string>, key: string, upstream: UpstreamOutcome)
    requires text != "" && key != ""
    ensures var x := Post(Json(Some(text), model), Some(key), upstream);
            && x.sent.Some?
            && x.sent.value.content == text
            && x.sent.value.maxTokens == 1
            && x.sent.value.authorization == "Bearer " + key
            && x.sent.value.model == (if model.Some? && model.value != "" then model.value else "gpt-4o")
  {
  }

  /** A successful upstream response is passed through as the count, with no note. */
  lemma DelegatedSuccess(text: string, model: Option<string>, key: string, n: int)
    requires text != "" && key != ""
    ensures Post(Json(Some(text), model), Some(key), PromptTokens(n)).response
            == Response(200, TokenCount(n, None))
  {
  }

  /** A failed upstream call is a 500 carrying the upstream message when there
      is a non-empty one, and the generic message otherwise. */
  lemma DelegatedFailure(text: string, model: Option<string>, key: string, upstream: UpstreamOutcome)
    requires text != "" && key != "" && !upstream.PromptTokens?
    ensures var r := Post(Json(Some(text), model), Some(key), upstream).response;
            var given := if upstream.Rejected? then upstream.errorMessage.GetOr("") else upstream.message;
            r == Response(500, Error(if given != "" then given else "Failed to count tokens"))
  {
  }
}

=== FILE: js_numbers.dfy ===
/** The two JavaScript number conversions the share link relies on:
    `Number.prototype.toString()` on an integer and `Number.parseInt(string)`
    with no radix argument. Numbers are unbounded integers or NaN; the
    precision of IEEE-754 doubles is not modelled. */
module JsNumbers {
  import opened Text

  /** A JavaScript number that holds an integer, or NaN. */
  datatype Num = Int(value: int) | NaN

  predicate IsDecimalDigit(c: char)
  {
    '0' <= c <= '9'
  }

  function DigitChar(d: nat): (c: char)
    requires d < 10
    ensures IsDecimalDigit(c)
  {
    ((('0' as int) + d) as char)
  }

  /** Value of an alphanumeric character as a digit in any radix up to 36;
      36 for every other character. */
  function DigitValue(c: char): (v: nat)
    ensures v <= 36
    ensures IsDecimalDigit(c) <==> v < 10
  {
    if '0' <= c <= '9' then (c as int) - ('0' as int)
    else if 'a' <= c <= 'z' then (c as int) - ('a' as int) + 10
    else if 'A' <= c <= 'Z' then (c as int) - ('A' as int) + 10
    else 36
  }

  predicate IsRadixDigit(c: char, radix: nat)
  {
    DigitValue(c) < radix
  }

  /** The decimal digits of `n`, most significant first, without leading zeros. */
  function DecimalDigits(n: nat): (r: string)
    ensures |r| >= 1
    ensures forall k :: 0 <= k < |r| ==> IsDecimalDigit(r[k])
    ensures r[0] == '0' ==> n == 0 && r == "0"
  {
    if n < 10 then [DigitChar(n)] else DecimalDigits(n / 10) + [DigitChar(n % 10)]
  }

  /** `Number.prototype.toString()` for an integer or NaN. */
  function NumToString(x: Num): (r: string)
    ensures r == "NaN" <==> x.NaN?
    ensures x.Int? ==> r != [] && (r[0] == '-' <==> x.value < 0)
  {
    match x
    case NaN => "NaN"
    case Int(n) =>
      var r := if n < 0 then "-" + DecimalDigits(-n) else DecimalDigits(n);
      assert r[0] == '-' || IsDecimalDigit(r[0]);
      r
  }

  /** The longest prefix of `s` made of digits in `radix`. */
  function DigitPrefix(s: string, radix: nat): (r: string)
    ensures |r| <= |s| && r == s[..|r|]
    ensures forall k :: 0 <= k < |r| ==> IsRadixDigit(r[k], radix)
    ensures |r| == |s| || !IsRadixDigit(s[|r|], radix)
  {
    if s == [] || !IsRadixDigit(s[0], radix) then [] else [s[0]] + DigitPrefix(s[1..], radix)
  }

  /** Positional value of a digit string in `radix`. */
  function DigitsValue(ds: string, radix: nat): nat
  {
    if ds == [] then 0
    else DigitsValue(ds[..|ds| - 1], radix) * radix + DigitValue(ds[|ds| - 1])
  }

  /** Radix detection and digit reading after the sign: hexadecimal after a
      `0x`/`0X` prefix, decimal otherwise; NaN when no digit is read. */
  function Magnitude(u: string): (r: Num)
    ensures r.Int? ==> r.value >= 0
  {
    var hex := |u| >= 2 && u[0] == '0' && (u[1] == 'x' || u[1] == 'X');
    var radix := if hex then 16 else 10;
    var digits := DigitPrefix(if hex then u[2..] else u, radix);
    if digits == [] then NaN else Int(DigitsValue(digits, radix))
  }

  function Negate(x: Num): Num
  {
    match x
    case NaN => NaN
    case Int(n) => Int(-n)
  }

  /** `Number.parseInt(s)`: skip leading whitespace, take an optional sign,
      then read the magnitude, stopping at the first character that is not a
      digit. */
  function ParseInt(s: string): Num
  {
    var t := TrimStart(s);
    if t != [] && t[0] == '-' then Negate(Magnitude(t[1..]))
    else if t != [] && t[0] == '+' then Magnitude(t[1..])
    else Magnitude(t)
  }

  lemma {:induction false} DecimalDigitsValue(n: nat)
    ensures DigitsValue(DecimalDigits(n), 10) == n
  {
    var r := DecimalDigits(n);
    if n >= 10 {
      DecimalDigitsValue(n / 10);
      assert r[..|r| - 1] == DecimalDigits(n / 10);
    }
  }

  lemma {:induction false} DigitPrefixWhole(s: string, rest: string, radix: nat)
    requires forall k :: 0 <= k < |s| ==> IsRadixDigit(s[k], radix)
    requires rest == [] || !IsRadixDigit(rest[0], radix)
    ensures DigitPrefix(s + rest, radix) == s
  {
    if s == [] {
      assert s + rest == rest;
    } else {
      assert IsRadixDigit((s + rest)[0], radix);
      DigitPrefixWhole(s[1..], rest, radix);
      assert (s + rest)[1..] == s[1..] + rest;
    }
  }

  lemma MagnitudeOfDecimal(m: nat, suffix: string)
    requires suffix == [] || (!IsDecimalDigit(suffix[0]) && suffix[0] != 'x' && suffix[0] != 'X')
    ensures Magnitude(DecimalDigits(m) + suffix) == Int(m)
  {
    var digits := DecimalDigits(m);
    var u := digits + suffix;
    DecimalDigitsValue(m);
    DigitPrefixWhole(digits, suffix, 10);
    if |u| >= 2 && u[0] == '0' {
      assert |digits| == 1;
      assert u[1] == suffix[0];
    }
  }

  lemma ParseIntOfNaNString()
    ensures ParseInt("NaN") == NaN
  {
    assert !IsWhitespace('N');
    assert TrimStart("NaN") == "NaN";
    assert !IsRadixDigit('N', 10);
    assert DigitPrefix("NaN", 10) == [];
  }

  lemma DigitIsNoSpaceOrSign(c: char)
    requires IsDecimalDigit(c)
    ensures !IsWhitespace(c) && c != '-' && c != '+'
  {
  }

  /** Text starting with a digit is read as an unsigned magnitude. */
  lemma ParseIntUnsigned(u: string)
    requires u != [] && IsDecimalDigit(u[0])
    ensures ParseInt(u) == Magnitude(u)
  {
    DigitIsNoSpaceOrSign(u[0]);
    assert TrimStart(u) == u;
  }

  /** A minus sign before a digit negates the magnitude. */
  lemma ParseIntNegative(u: string)
    requires u != [] && IsDecimalDigit(u[0])
    ensures ParseInt("-" + u) == Negate(Magnitude(u))
  {
    var t := "-" + u;
    assert t[0] == '-' && t[1..] == u;
    assert !IsWhitespace(t[0]);
    assert TrimStart(t) == t;
  }

  lemma ParseIntOfNonNegative(m: nat, suffix: string)
    requires suffix == [] || (!IsDecimalDigit(suffix[0]) && suffix[0] != 'x' && suffix[0] != 'X')
    ensures ParseInt(DecimalDigits(m) + suffix) == Int(m)
  {
    var u := DecimalDigits(m) + suffix;
    MagnitudeOfDecimal(m, suffix);
    assert u[0] == DecimalDigits(m)[0];
    ParseIntUnsigned(u);
  }

  lemma ParseIntOfNegative(m: nat, suffix: string)
    requires suffix == [] || (!IsDecimalDigit(suffix[0]) && suffix[0] != 'x' && suffix[0] != 'X')
    ensures ParseInt("-" + (DecimalDigits(m) + suffix)) == Int(-(m as int))
  {
    var u := DecimalDigits(m) + suffix;
    MagnitudeOfDecimal(m, suffix);
    assert u[0] == DecimalDigits(m)[0];
    ParseIntNegative(u);
  }

  lemma NegativeToString(n: int, suffix: string)
    requires n < 0
    ensures NumToString(Int(n)) + suffix == "-" + (DecimalDigits(-n) + suffix)
  {
  }

  lemma ParseIntOfSignedDecimal(n: int, suffix: string)
    requires suffix == [] || (!IsDecimalDigit(suffix[0]) && suffix[0] != 'x' && suffix[0] != 'X')
    ensures ParseInt(NumToString(Int(n)) + suffix) == Int(n)
  {
    if n < 0 {
      var m: nat := -n;
      var t := "-" + (DecimalDigits(m) + suffix);
      assert ParseInt(t) == Int(n) by {
        ParseIntOfNegative(m, suffix);
      }
      assert NumToString(Int(n)) + suffix == t by {
        NegativeToString(n, suffix);
      }
    } else {
      var t := DecimalDigits(n) + suffix;
      assert ParseInt(t) == Int(n) by {
        ParseIntOfNonNegative(n, suffix);
      }
      assert NumToString(Int(n)) + suffix == t;
    }
  }

  /** `parseInt` reads back what `toString` wrote, and stops at any suffix
      that does not continue the number (`"12px"`, `"3.5"`, `"1e5"`). */
  lemma ParseIntOfToString(x: Num, suffix: string)
    requires x.NaN? ==> suffix == []
    requires suffix == [] || (!IsDecimalDigit(suffix[0]) && suffix[0] != 'x' && suffix[0] != 'X')
    ensures ParseInt(NumToString(x) + suffix) == x
  {
    match x
    case NaN =>
      ParseIntOfNaNString();
      assert NumToString(x) + suffix == "NaN";
    case Int(n) =>
      ParseIntOfSignedDecimal(n, suffix);
  }

  /** The share-link round trip for a number on its own. */
  lemma ParseIntInvertsToString(x: Num)
    ensures ParseInt(NumToString(x)) == x
  {
    ParseIntOfToString(x, []);
    assert NumToString(x) + [] == NumToString(x);
  }

  /** Text that is all whitespace, or whose first character after the
      leading whitespace is neither a sign nor a digit, reads as NaN. */
  lemma ParseIntWithoutDigits(w: string, s: string)
    requires AllWhitespace(w)
    requires s == [] || (!IsWhitespace(s[0]) && s[0] != '-' && s[0] != '+' && !IsDecimalDigit(s[0]))
    ensures ParseInt(w + s) == NaN
  {
    TrimStartSkipsWhitespace(w, s);
  }

  /** `parseInt` honours a hexadecimal prefix: after an optional sign, `0x` or
      `0X` followed by hexadecimal digits is read in radix 16, up to the first
      character that is not a hexadecimal digit. */
  lemma ParseIntHexadecimal(sign: string, x: char, ds: string, suffix: string)
    requires sign == "" || sign == "-" || sign == "+"
    requires x == 'x' || x == 'X'
    requires ds != [] && forall k :: 0 <= k < |ds| ==> IsRadixDigit(ds[k], 16)
    requires suffix == [] || !IsRadixDigit(suffix[0], 16)
    ensures ParseInt(sign + (['0', x] + (ds + suffix)))
            == if sign == "-" then Int(-(DigitsValue(ds, 16) as int)) else Int(DigitsValue(ds, 16))
  {
    MagnitudeOfHex(x, ds, suffix);
    if sign == "-" {
      ParseIntHexNegative(x, ds, suffix);
    } else {
      ParseIntHexUnsigned(sign, x, ds, suffix);
    }
  }

  lemma ParseIntHexNegative(x: char, ds: string, suffix: string)
    requires Magnitude(['0', x] + (ds + suffix)) == Int(DigitsValue(ds, 16))
    ensures ParseInt("-" + (['0', x] + (ds + suffix))) == Int(-(DigitsValue(ds, 16) as int))
  {
    var u := ['0', x] + (ds + suffix);
    var n := DigitsValue(ds, 16);
    assert ParseInt("-" + u) == Int(-(n as int)) by {
      assert u[0] == '0';
      ParseIntSignedMagnitude("-", u, n);
    }
  }

  lemma ParseIntHexUnsigned(sign: string, x: char, ds: string, suffix: string)
    requires sign == "" || sign == "+"
    requires Magnitude(['0', x] + (ds + suffix)) == Int(DigitsValue(ds, 16))
    ensures ParseInt(sign + (['0', x] + (ds + suffix))) == Int(DigitsValue(ds, 16))
  {
    var u := ['0', x] + (ds + suffix);
    var n := DigitsValue(ds, 16);
    assert ParseInt(sign + u) == Int(n) by {
      assert u[0] == '0';
      ParseIntSignedMagnitude(sign, u, n);
    }
  }

  /** `ParseIntSigned` for a magnitude already known to be `n`. */
  lemma ParseIntSignedMagnitude(sign: string, u: string, n: nat)
    requires sign == "" || sign == "-" || sign == "+"
    requires u != [] && IsDecimalDigit(u[0]) && Magnitude(u) == Int(n)
    ensures ParseInt(sign + u) == if sign == "-" then Int(-(n as int)) else Int(n)
  {
    ParseIntSigned(sign, u);
  }

  lemma MagnitudeOfHex(x: char, ds: string, suffix: string)
    requires x == 'x' || x == 'X'
    requires forall k :: 0 <= k < |ds| ==> IsRadixDigit(ds[k], 16)
    requires suffix == [] || !IsRadixDigit(suffix[0], 16)
    ensures Magnitude(['0', x] + (ds + suffix))
            == if ds == [] then NaN else Int(DigitsValue(ds, 16))
  {
    var u := ['0', x] + (ds + suffix);
    assert u[2..] == ds + suffix;
    DigitPrefixWhole(ds, suffix, 16);
    HexMagnitude(u);
  }

  /** After a `0x`/`0X` prefix the digits are read in radix 16. */
  lemma HexMagnitude(u: string)
    requires |u| >= 2 && u[0] == '0' && (u[1] == 'x' || u[1] == 'X')
    ensures Magnitude(u)
            == if DigitPrefix(u[2..], 16) == [] then NaN else Int(DigitsValue(DigitPrefix(u[2..], 16), 16))
  {
  }

  /** An optional sign before a digit: `-` negates the magnitude, `+` and no
      sign keep it. */
  lemma ParseIntSigned(sign: string, u: string)
    requires sign == "" || sign == "-" || sign == "+"
    requires u != [] && IsDecimalDigit(u[0])
    ensures ParseInt(sign + u) == if sign == "-" then Negate(Magnitude(u)) else Magnitude(u)
  {
    if sign == "" {
      assert sign + u == u;
      ParseIntUnsigned(u);
    } else {
      var t := sign + u;
      assert t[0] == sign[0] && t[1..] == u && !IsWhitespace(t[0]);
      assert TrimStart(t) == t;
    }
  }
}

=== FILE: optional.dfy ===
/** Optional values: a JSON field or query parameter that may be absent. */
module Optional {

  datatype Option<+T> = None | Some(value: T)
  {
    function GetOr(default: T): T
    {
      match this
      case Some(v) => v
      case None => default
    }
  }

  /** JavaScript truthiness of an optional string: absent (`null`,
      `undefined`) and the empty string are falsy, every other string is truthy. */
  predicate Truthy(s: Option<string>)
  {
    s.Some? && s.value != ""
  }
}

=== FILE: pricing.dfy ===
/** The fine-tuning cost calculator: the static catalog of model prices and
    the cost computation the calculator page re-runs whenever an input
    changes. Prices are exact rationals (`real`), so the identities below hold
    exactly rather than up to floating-point rounding. */
module Pricing {

  /** A catalog entry: US dollars per one million tokens. */
  datatype ModelPricing = ModelPricing(
    input: real,
    cachedInput: real,
    output: real,
    training: real,
    name: string,
    description: string)

  /** What the user asks to price. Token counts and epochs are integers; the
      calculator does not itself reject negative values. */
  datatype Usage = Usage(
    inputTokens: int,
    outputTokens: int,
    epochs: int,
    useCachedInput: bool,
    batchApi: bool)

  datatype CostBreakdown = CostBreakdown(
    training: real,
    inferenceInput: real,
    inferenceOutput: real,
    total: real)

  /** Rates are quoted per this many tokens. */
  const TokensPerRate: real := 1000000.0

  /** Batch API requests are billed at this fraction of the regular rate. */
  const BatchDiscount: real := 0.5

  const Catalog: map<string, ModelPricing> := map[
    "gpt-4.1" := ModelPricing(3.0, 0.75, 12.0, 25.0, "GPT-4.1", "High performance for complex tasks"),
    "gpt-4.1-mini" := ModelPricing(0.8, 0.2, 3.2, 5.0, "GPT-4.1 mini", "Balanced performance and cost"),
    "gpt-4o" := ModelPricing(3.75, 1.875, 15.0, 25.0, "GPT-4o", "Latest model with multimodal capabilities"),
    "gpt-4o-mini" := ModelPricing(0.3, 0.15, 1.2, 3.0, "GPT-4o mini", "Cost-effective with good performance")
  ]

  /** Rates are non-negative and caching never makes input dearer. */
  predicate WellFormedRates(m: ModelPricing)
  {
    0.0 <= m.cachedInput <= m.input && 0.0 <= m.output && 0.0 <= m.training
  }

  lemma CatalogWellFormed()
    ensures |Catalog| == 4
    ensures forall id :: id in Catalog ==> WellFormedRates(Catalog[id])
  {
  }

  /** The cost of `u` at the prices of `m`: training is billed on the input
      tokens once per epoch, inference on input and output tokens, and the
      Batch API halves both inference costs but not training. */
  function Costs(m: ModelPricing, u: Usage): (c: CostBreakdown)
    ensures c.total == c.training + c.inferenceInput + c.inferenceOutput
  {
    var training := (m.training / TokensPerRate) * (u.inputTokens as real) * (u.epochs as real);
    var inputRate := if u.useCachedInput then m.cachedInput else m.input;
    var inputCost := (inputRate / TokensPerRate) * (u.inputTokens as real);
    var outputCost := (m.output / TokensPerRate) * (u.outputTokens as real);
    var discount := if u.batchApi then BatchDiscount else 1.0;
    var finalInputCost := inputCost * discount;
    var finalOutputCost := outputCost * discount;
    CostBreakdown(training, finalInputCost, finalOutputCost, training + finalInputCost + finalOutputCost)
  }

  /** The Batch API halves each inference cost exactly and leaves training alone. */
  lemma BatchApiHalvesInference(m: ModelPricing, u: Usage)
    ensures var on := Costs(m, u.(batchApi := true));
            var off := Costs(m, u.(batchApi := false));
            && on.inferenceInput == off.inferenceInput / 2.0
            && on.inferenceOutput == off.inferenceOutput / 2.0
            && on.training == off.training
  {
  }

  /** The cached flag switches only the input rate; with well-formed rates it
      never raises the inference input cost. */
  lemma CachedInputNeverCostsMore(m: ModelPricing, u: Usage)
    requires WellFormedRates(m) && u.inputTokens >= 0
    ensures var cached := Costs(m, u.(useCachedInput := true));
            var plain := Costs(m, u.(useCachedInput := false));
            && cached.inferenceInput <= plain.inferenceInput
            && cached.inferenceOutput == plain.inferenceOutput
            && cached.training == plain.training
  {
    var x := u.inputTokens as real;
    var d := if u.batchApi then BatchDiscount else 1.0;
    assert (m.cachedInput / TokensPerRate) * x <= (m.input / TokensPerRate) * x;
    assert (m.cachedInput / TokensPerRate) * x * d <= (m.input / TokensPerRate) * x * d;
  }

  /** Every model of the catalog has well-formed rates, so for any of them the
      cached flag never raises the input cost. */
  lemma CatalogCachedInputNeverCostsMore(id: string, u: Usage)
    requires id in Catalog && u.inputTokens >= 0
    ensures Costs(Catalog[id], u.(useCachedInput := true)).inferenceInput
            <= Costs(Catalog[id], u.(useCachedInput := false)).inferenceInput
  {
    CatalogWellFormed();
    CachedInputNeverCostsMore(Catalog[id], u);
  }

  /** Training cost is linear in the number of epochs. */
  lemma TrainingLinearInEpochs(m: ModelPricing, u: Usage, k: int)
    ensures Costs(m, u.(epochs := k)).training == (k as real) * Costs(m, u.(epochs := 1)).training
  {
  }

  /** Training cost depends on the input tokens and epochs only. */
  lemma TrainingIgnoresInference(m: ModelPricing, u: Usage, v: Usage)
    requires u.inputTokens == v.inputTokens && u.epochs == v.epochs
    ensures Costs(m, u).training == Costs(m, v).training
  {
  }

  /** No tokens, no cost, whatever the model, epochs and flags. */
  lemma NoTokensCostNothing(m: ModelPricing, u: Usage)
    requires u.inputTokens == 0 && u.outputTokens == 0
    ensures Costs(m, u) == CostBreakdown(0.0, 0.0, 0.0, 0.0)
  {
  }

  /** Non-negative rates, tokens and epochs give non-negative costs. */
  lemma CostsNonNegative(m: ModelPricing, u: Usage)
    requires WellFormedRates(m)
    requires u.inputTokens >= 0 && u.outputTokens >= 0 && u.epochs >= 0
    ensures var c := Costs(m, u);
            c.training >= 0.0 && c.inferenceInput >= 0.0 && c.inferenceOutput >= 0.0 && c.total >= 0.0
  {
    var x := u.inputTokens as real;
    var y := u.outputTokens as real;
    var e := u.epochs as real;
    var rt := m.training / TokensPerRate;
    assert rt * x >= 0.0;
    assert rt * x * e >= 0.0;
    var ri := (if u.useCachedInput then m.cachedInput else m.input) / TokensPerRate;
    assert ri * x >= 0.0;
    assert (m.output / TokensPerRate) * y >= 0.0;
  }

  /** The worked example: gpt-4o, 100000 input and 20000 output tokens,
      3 epochs, without and with the Batch API. */
  lemma Gpt4oExample()
    ensures Costs(Catalog["gpt-4o"], Usage(100000, 20000, 3, false, false))
            == CostBreakdown(7.5, 0.375, 0.3, 8.175)
    ensures Costs(Catalog["gpt-4o"], Usage(100000, 20000, 3, false, true))
            == CostBreakdown(7.5, 0.1875, 0.15, 7.8375)
  {
  }
}

=== FILE: text.dfy ===
/** Whitespace handling shared by the token-count endpoint (`text.trim()`,
    `split(/\s+/)`) and by `Number.parseInt`, which skips the same leading
    whitespace. Strings are sequences of UTF-16 code units in JavaScript; every
    whitespace character is in the Basic Multilingual Plane, so modelling them
    as `char` loses nothing here. */
module Text {

  /** JavaScript's `\s` class and the set `String.prototype.trim` removes:
      the WhiteSpace and LineTerminator code points of ECMAScript (tab, line
      feed, vertical tab, form feed, carriage return, space, no-break space,
      the Unicode space separators, line and paragraph separators, and the
      byte order mark). */
  predicate IsWhitespace(c: char)
  {
    if c < '\U{00A0}' then c == ' ' || ('\t' <= c <= '\r')
    else
      || c == '\U{00A0}' || c == '\U{1680}' || ('\U{2000}' <= c <= '\U{200A}')
      || c == '\U{2028}' || c == '\U{2029}' || c == '\U{202F}' || c == '\U{205F}'
      || c == '\U{3000}' || c == '\U{FEFF}'
  }

  predicate AllWhitespace(s: string)
  {
    forall k :: 0 <= k < |s| ==> IsWhitespace(s[k])
  }

  predicate NoWhitespace(s: string)
  {
    forall k :: 0 <= k < |s| ==> !IsWhitespace(s[k])
  }

  /** Neither end of `s` is whitespace. */
  predicate IsTrimmed(s: string)
  {
    s == [] || (!IsWhitespace(s[0]) && !IsWhitespace(s[|s| - 1]))
  }

  /** `r` is the stretch of `s` starting at `i`, and everything of `s` before
      and after that stretch is whitespace. */
  predicate IsMiddleAt(s: string, r: string, i: int)
  {
    && 0 <= i <= |s| - |r| && r == s[i..i + |r|]
    && (forall k :: 0 <= k < i ==> IsWhitespace(s[k]))
    && (forall k :: i + |r| <= k < |s| ==> IsWhitespace(s[k]))
  }

  /** `s` with its leading whitespace removed: the longest suffix of `s` that
      does not start with whitespace. */
  function TrimStart(s: string): (r: string)
    ensures |r| <= |s| && r == s[|s| - |r|..]
    ensures forall k :: 0 <= k < |s| - |r| ==> IsWhitespace(s[k])
    ensures r == [] || !IsWhitespace(r[0])
  {
    if s != [] && IsWhitespace(s[0]) then
      var r := TrimStart(s[1..]);
      assert s[1..][|s| - 1 - |r|..] == s[|s| - |r|..];
      assert forall k :: 1 <= k < |s| ==> s[k] == s[1..][k - 1];
      r
    else s
  }

  /** Trimming the start drops exactly a leading run of whitespace. */
  lemma {:induction false} TrimStartSkipsWhitespace(w: string, s: string)
    requires AllWhitespace(w)
    requires s == [] || !IsWhitespace(s[0])
    ensures TrimStart(w + s) == s
  {
    if w == [] {
      assert w + s == s;
    } else {
      assert (w + s)[0] == w[0] && (w + s)[1..] == w[1..] + s;
      TrimStartSkipsWhitespace(w[1..], s);
    }
  }

  /** `s` with its trailing whitespace removed: the longest prefix of `s` that
      does not end with whitespace. */
  function TrimEnd(s: string): (r: string)
    ensures |r| <= |s| && r == s[..|r|]
    ensures forall k :: |r| <= k < |s| ==> IsWhitespace(s[k])
    ensures r == [] || !IsWhitespace(r[|r| - 1])
  {
    if s != [] && IsWhitespace(s[|s| - 1]) then
      var r := TrimEnd(s[..|s| - 1]);
      assert s[..|s| - 1][..|r|] == s[..|r|];
      r
    else s
  }

  /** `String.prototype.trim`. */
  function Trim(s: string): (r: string)
    ensures IsTrimmed(r)
    ensures r == [] <==> AllWhitespace(s)
    ensures exists i :: IsMiddleAt(s, r, i)
  {
    var t := TrimStart(s);
    var r := TrimEnd(t);
    TrimLeavesNothingOfBlank(s);
    MiddleOfSuffix(s, t, r);
    r
  }

  /** A prefix `r` of a suffix `t` of `s` is a middle stretch of `s`, with
      whitespace around it when the parts cut off were whitespace. */
  lemma MiddleOfSuffix(s: string, t: string, r: string)
    requires |t| <= |s| && t == s[|s| - |t|..]
    requires |r| <= |t| && r == t[..|r|]
    requires forall k :: 0 <= k < |s| - |t| ==> IsWhitespace(s[k])
    requires forall k :: |r| <= k < |t| ==> IsWhitespace(t[k])
    ensures IsMiddleAt(s, r, |s| - |t|)
  {
    var i := |s| - |t|;
    assert r == s[i..i + |r|];
    forall k | i + |r| <= k < |s|
      ensures IsWhitespace(s[k])
    {
      assert s[k] == t[k - i];
    }
  }

  lemma TrimLeavesNothingOfBlank(s: string)
    ensures TrimEnd(TrimStart(s)) == [] ==> AllWhitespace(s)
  {
    var t := TrimStart(s);
    if TrimEnd(t) == [] {
      assert t == [];
    }
  }

  /** The characters of `s` that are not whitespace, in order. */
  function RemoveWhitespace(s: string): (r: string)
    ensures NoWhitespace(r)
    ensures |r| <= |s|
  {
    if s == [] then []
    else if IsWhitespace(s[0]) then RemoveWhitespace(s[1..])
    else [s[0]] + RemoveWhitespace(s[1..])
  }

  function Flatten(pieces: seq<string>): string
  {
    if pieces == [] then [] else pieces[0] + Flatten(pieces[1..])
  }

  /** `s.split(/\s+/)`: the pieces of `s` between maximal runs of whitespace.
      A run at either end yields an empty piece there, and the empty string
      splits into one empty piece. */
  function Split(s: string): (pieces: seq<string>)
    ensures |pieces| >= 1
  {
    SplitFrom(s, [], false)
  }

  /** Splitting `s` when the piece under construction holds `cur`;
      `inRun` says whether the character before `s` was whitespace, in which
      case the separator has already closed the previous piece. */
  function SplitFrom(s: string, cur: string, inRun: bool): (pieces: seq<string>)
    ensures |pieces| >= 1
  {
    if s == [] then [cur]
    else if IsWhitespace(s[0]) then
      if inRun then SplitFrom(s[1..], [], true) else [cur] + SplitFrom(s[1..], [], true)
    else SplitFrom(s[1..], cur + [s[0]], false)
  }

  /** Reference count of the maximal whitespace runs of `s`, one per position
      where whitespace follows a non-whitespace character or the start.
      `afterWhitespace` says whether the character before `s` was whitespace. */
  function RunStarts(s: string, afterWhitespace: bool): nat
  {
    if s == [] then 0
    else (if IsWhitespace(s[0]) && !afterWhitespace then 1 else 0)
         + RunStarts(s[1..], IsWhitespace(s[0]))
  }

  function WhitespaceRuns(s: string): nat
  {
    RunStarts(s, false)
  }

  lemma {:induction false} SplitFromLength(s: string, cur: string, inRun: bool)
    ensures |SplitFrom(s, cur, inRun)| == 1 + RunStarts(s, inRun)
  {
    if s != [] {
      if IsWhitespace(s[0]) {
        SplitFromLength(s[1..], [], true);
      } else {
        SplitFromLength(s[1..], cur + [s[0]], false);
      }
    }
  }

  /** `split(/\s+/)` yields one more piece than there are whitespace runs. */
  lemma SplitLength(s: string)
    ensures |Split(s)| == 1 + WhitespaceRuns(s)
  {
    SplitFromLength(s, [], false);
  }

  lemma {:induction false} RemoveWhitespaceSkipsRun(s: string)
    ensures RemoveWhitespace(TrimStart(s)) == RemoveWhitespace(s)
  {
    if s != [] && IsWhitespace(s[0]) {
      RemoveWhitespaceSkipsRun(s[1..]);
    }
  }

  lemma {:induction false} SplitFromContents(s: string, cur: string, inRun: bool)
    requires inRun ==> cur == []
    ensures Flatten(SplitFrom(s, cur, inRun)) == cur + RemoveWhitespace(s)
  {
    if s == [] {
      assert Flatten([cur]) == cur + Flatten([]);
    } else if IsWhitespace(s[0]) {
      var rest := SplitFrom(s[1..], [], true);
      SplitFromContents(s[1..], [], true);
      if !inRun {
        assert ([cur] + rest)[1..] == rest;
      }
    } else {
      SplitFromContents(s[1..], cur + [s[0]], false);
      assert cur + [s[0]] + RemoveWhitespace(s[1..]) == cur + ([s[0]] + RemoveWhitespace(s[1..]));
    }
  }

  /** The pieces, put back together, are exactly the non-whitespace
      characters of `s`: splitting loses nothing but whitespace. */
  lemma SplitContents(s: string)
    ensures Flatten(Split(s)) == RemoveWhitespace(s)
  {
    SplitFromContents(s, [], false);
  }

  lemma {:induction false} SplitFromPiecesNonEmpty(s: string, cur: string, inRun: bool)
    requires s == [] || !IsWhitespace(s[|s| - 1])
    requires inRun ==> cur == [] && s != []
    requires !inRun ==> cur != [] || (s != [] && !IsWhitespace(s[0]))
    ensures forall i :: 0 <= i < |SplitFrom(s, cur, inRun)| ==> SplitFrom(s, cur, inRun)[i] != []
  {
    if s != [] {
      if IsWhitespace(s[0]) {
        assert |s| >= 2;
        SplitFromPiecesNonEmpty(s[1..], [], true);
      } else {
        SplitFromPiecesNonEmpty(s[1..], cur + [s[0]], false);
      }
    }
  }

  /** Text with no whitespace at either end and at least one character splits
      into non-empty pieces only: the pieces are its words. */
  lemma SplitTrimmedIntoWords(s: string)
    requires IsTrimmed(s) && s != []
    ensures forall i :: 0 <= i < |Split(s)| ==> Split(s)[i] != []
  {
    SplitFromPiecesNonEmpty(s, [], false);
  }

  /** Text with no whitespace at all splits into exactly one piece, itself. */
  lemma SplitWhitespaceFree(s: string)
    requires NoWhitespace(s)
    ensures Split(s) == [s]
  {
    SplitFromWhitespaceFree(s, []);
    assert [] + s == s;
  }

  lemma {:induction false} SplitFromWhitespaceFree(s: string, cur: string)
    requires NoWhitespace(s)
    ensures SplitFrom(s, cur, false) == [cur + s]
  {
    if s == [] {
      assert cur + s == cur;
    } else {
      assert !IsWhitespace(s[0]);
      SplitFromWhitespaceFree(s[1..], cur + [s[0]]);
      assert cur + [s[0]] + s[1..] == cur + s;
    }
  }

  lemma {:induction false} RemoveWhitespaceAppend(a: string, b: string)
    ensures RemoveWhitespace(a + b) == RemoveWhitespace(a) + RemoveWhitespace(b)
  {
    if a == [] {
      assert a + b == b;
    } else {
      var ab := a + b;
      assert ab[0] == a[0] && ab[1..] == a[1..] + b;
      RemoveWhitespaceAppend(a[1..], b);
      if IsWhitespace(a[0]) {
        assert RemoveWhitespace(ab) == RemoveWhitespace(a[1..] + b);
      } else {
        assert RemoveWhitespace(ab) == [a[0]] + RemoveWhitespace(a[1..] + b);
        assert [a[0]] + (RemoveWhitespace(a[1..]) + RemoveWhitespace(b))
            == ([a[0]] + RemoveWhitespace(a[1..])) + RemoveWhitespace(b);
      }
    }
  }

  lemma {:induction false} RemoveWhitespaceOfWhitespace(s: string)
    requires AllWhitespace(s)
    ensures RemoveWhitespace(s) == []
  {
    if s != [] {
      RemoveWhitespaceOfWhitespace(s[1..]);
    }
  }

  /** Trimming removes only whitespace. */
  lemma TrimKeepsNonWhitespace(s: string)
    ensures RemoveWhitespace(Trim(s)) == RemoveWhitespace(s)
  {
    var t := TrimStart(s);
    RemoveWhitespaceSkipsRun(s);
    TrimEndKeepsNonWhitespace(t);
  }

  lemma TrimEndKeepsNonWhitespace(s: string)
    ensures RemoveWhitespace(TrimEnd(s)) == RemoveWhitespace(s)
  {
    var r := TrimEnd(s);
    var trail := s[|r|..];
    assert s == r + trail;
    RemoveWhitespaceAppend(r, trail);
    RemoveWhitespaceOfWhitespace(trail);
  }

  lemma {:induction false} SplitFromPiecesHaveNoWhitespace(s: string, cur: string, inRun: bool)
    requires NoWhitespace(cur)
    ensures forall i :: 0 <= i < |SplitFrom(s, cur, inRun)| ==> NoWhitespace(SplitFrom(s, cur, inRun)[i])
  {
    if s != [] {
      if IsWhitespace(s[0]) {
        SplitFromPiecesHaveNoWhitespace(s[1..], [], true);
      } else {
        SplitFromPiecesHaveNoWhitespace(s[1..], cur + [s[0]], false);
      }
    }
  }

  /** No piece of a split holds whitespace. */
  lemma SplitPiecesHaveNoWhitespace(s: string)
    ensures forall i :: 0 <= i < |Split(s)| ==> NoWhitespace(Split(s)[i])
  {
    SplitFromPiecesHaveNoWhitespace(s, [], false);
  }
}
